=== FILE: README.md ===
# repomd in Dafny

A model of `repomd`, a small library that loads the metadata of a dnf/yum
package repository. `load(baseurl)` fetches `repodata/repomd.xml` under the
base URL. A 404 there means "not a repository". The library then reads a
mirror list at the base URL and tries each listed mirror in order. Next it
reads the location of the primary catalog from the index and fetches that
catalog from the root that served the index. The result is a `Repo` whose
`Package` views expose each catalog record and its identity strings
(`vr`, `nvr`, `evr`, `nevr`, `nevra`).

Modules, one per component of `source/repomd.py`, plus two support modules (`Results` and `PyInt`):

- `Results` (`results.dfy`): `Option` and `Result`.
- `PyInt` (`pyint.dfy`): Python's `int()` on a string. `evr` uses it to decide
  whether the epoch is shown, and `len(repo)` uses it to read the declared
  count.
- `Urls` (`urls.dfy`): a parsed URL as a record. Its path is a list of
  `PurePosixPath` segments, and `_replace(path=...)` replaces only the path.
- `Mirrorlist` (`mirrorlist.dfy`): `_load_mirrorlist`, as a recursive
  definition (`Collect`) and as the source's loop (`LoadMirrorlist`), proved
  equal.
- `Packages` (`packages.dfy`): the catalog record, the `Package` view, its
  identity strings, and `__eq__`/`__hash__` through the identity 5-tuple.
- `Repositories` (`repositories.dfy`): `Repo` with `__len__`, `__iter__`,
  `find` and `findall`.
- `Loader` (`loader.dfy`): `_load_repomd`, `_parse_baseurl`, the mirror
  fallback and the catalog fetch of `load`. The network and the parsers are
  the oracles of an `Env` value. `Load` returns the outcome together with the
  ordered trace of every request made.

Behaviour of the code that the model follows and that a reader may not expect:

- A successful `Repo` records the caller's URL, not the mirror's (line 97).
- A mirror-list line that `urlparse` rejects ends the scan, and the later
  lines are lost. The `try` surrounds the whole loop, so the line is not just
  skipped.
- An index without a usable primary entry crashes (`AttributeError` or
  `TypeError`). The model reports it as the failure `MalformedIndex`.
- A 404 on the primary catalog is an ordinary `HTTPError`
  (`HttpFailure(404)`), not "not a repository".
- `Repo` iteration yields every child of the catalog root. `findall` selects
  only `package` children by name.

## Model

| member | source | states |
|---|---|---|
| `PyInt.IntValue` | source/repomd.py:116 | definition of `int(text)` on text: surrounding whitespace, an optional sign, digits with single underscores between them; `None` where Python raises `ValueError`, except for the digit-count limit listed under "Left out" (its properties are the lemmas below) |
| `PyInt.StripLeftRemovesSpace` | source/repomd.py:222 | `int()` skips exactly the leading whitespace: the removed prefix is all whitespace and the rest does not start with whitespace |
| `PyInt.StripRightRemovesSpace` | source/repomd.py:222 | `int()` skips exactly the trailing whitespace |
| `PyInt.StripKeepsText` | source/repomd.py:222 | stripping keeps every non-whitespace character of the text and introduces none |
| `PyInt.DigitsValueZero` | source/repomd.py:222 | the value of a digit group is zero iff it has no nonzero digit |
| `PyInt.ZeroIffNoNonzeroDigit` | source/repomd.py:222 | an integer text (whitespace, sign, underscores allowed) has value 0 iff no character is a nonzero digit, so "0", "00" and "-0" all count as epoch zero |
| `PyInt.SingleDigit` | source/repomd.py:116 | a one-digit text such as the fixture's "0", "1" or "5" converts to its digit value |
| `Urls.ReplacePath` | source/repomd.py:43 | definition of `base._replace(path=...)`: the record with only its path changed (its laws are `ReplacePathLaws`) |
| `Urls.RepomdLocation` | source/repomd.py:42-43 | definition of the index location: the base path followed by `repodata/repomd.xml` |
| `Urls.HrefLocation` | source/repomd.py:88-89 | definition of a catalog location: the base path followed by the `href` as one path segment |
| `Urls.ReplacePathLaws` | source/repomd.py:43 | `_replace(path=...)` keeps scheme, host, params, query and fragment; the last replacement wins; two URLs agree after a replacement iff they had the same origin |
| `Urls.SiblingsShareRoot` | source/repomd.py:42-89 | the index URL (lines 42-43) and a catalog URL (lines 88-89) built from one base share its origin and its path prefix |
| `Mirrorlist.CollectAppend` | source/repomd.py:29-35 | scanning `a + b` gives a's candidates, then b's only if every line of a parsed: input order is kept and a rejected line ends the scan |
| `Mirrorlist.CollectSound` | source/repomd.py:29-33 | every candidate is the `geturl` of a line that parsed with scheme http/https and a non-empty netloc |
| `Mirrorlist.CollectComplete` | source/repomd.py:29-33 | every acceptable line before the first rejected one yields a candidate |
| `Mirrorlist.CollectStopsAtRejectedLine` | source/repomd.py:24-37 | after a line `urlparse` rejects, the result is what was collected before it |
| `Mirrorlist.IsMirrorUrl` | source/repomd.py:32 | definition of the mirror filter: scheme `http` or `https` and a non-empty netloc |
| `Mirrorlist.Collect` | source/repomd.py:29-33 | the scan over the lines keeps at most one candidate per line |
| `Mirrorlist.Candidates` | source/repomd.py:21-37 | `_load_mirrorlist`: a failed fetch or decode gives no candidates, otherwise at most one per line of the body |
| `Mirrorlist.LoadMirrorlist` | source/repomd.py:21-37 | the loop returns exactly the candidate list; a failed fetch or decode returns `[]`; every result is the `geturl` of some line of the fetched body that parsed with scheme http/https and a non-empty netloc |
| `Packages.Format` | source/repomd.py:205-233 | definition of how the f-strings print an optional field: its text, or "None" when it is missing |
| `Packages.EpochShown` | source/repomd.py:216-222 | definition of the `if int(e):` test: a missing epoch or one `int()` rejects is the failure `evr` raises, otherwise whether its value is nonzero (properties in `EvrOmitsZeroEpoch` and `FixtureEpochs`) |
| `Packages.Vr` | source/repomd.py:205-210 | definition of `vr`: version and release joined by a dash, `None` printed as "None" |
| `Packages.Nvr` | source/repomd.py:212-214 | definition of `nvr`: the name, a dash and `vr` |
| `Packages.Evr` | source/repomd.py:216-225 | definition of `evr`, failing where `int(epoch)` raises (its properties are `EvrOmitsZeroEpoch` and `NevraColonIffEpochShown`) |
| `Packages.Nevr` | source/repomd.py:227-229 | definition of `nevr`: the name, a dash and `evr`, failing where `evr` fails |
| `Packages.Nevra` | source/repomd.py:231-233 | definition of `nevra`: `nevr`, a dot and the arch, failing where `evr` fails |
| `Packages.Key` | source/repomd.py:235-237 | definition of the identity 5-tuple (name, epoch, version, release, arch) |
| `Packages.Equal` | source/repomd.py:239-240 | definition of `__eq__`: equal 5-tuples (its laws are `EqualIsEquivalence` and `EqualPackagesAgree`) |
| `Packages.Hash` | source/repomd.py:242-243 | definition of `__hash__` as a given tuple hash of the 5-tuple |
| `Packages.EvrOmitsZeroEpoch` | source/repomd.py:217-225 | `evr` succeeds iff the epoch exists and is an integer; it equals `vr` iff the epoch text has no nonzero digit, and otherwise it is `epoch:vr` |
| `Packages.IdentityStringsCompose` | source/repomd.py:205-233 | `nevr` and `nevra` fail exactly when `evr` fails; otherwise `nevra` is `name-evr.arch`; with a zero epoch, `nevra` is `nvr.arch` |
| `Packages.NevraColonIffEpochShown` | source/repomd.py:217-233 | if the name, version, release and arch contain no colon, `nevra` contains one iff the epoch is shown |
| `Packages.EqualPackagesAgree` | source/repomd.py:235-243 | packages with equal 5-tuples have the same identity strings and the same hash, for any tuple hash |
| `Packages.EqualIsEquivalence` | source/repomd.py:239-240 | `__eq__` on the 5-tuple is reflexive, symmetric and transitive |
| `Packages.NevraDoesNotDecideEquality` | source/repomd.py:235-240 | with a zero epoch, moving a dash-separated piece between name and version keeps `nvr` and `nevra` but changes equality |
| `Packages.CopiesCollapseInSets` | source/repomd.py:235-243 | a view whose record differs from a package's only in the summary is a different value but is equal, hashes alike and finds the package's dict entry; two unequal packages and a copy of each form a set of two |
| `Packages.FixtureEpochs` | source/repomd.py:222 | epoch "0" is hidden and epoch "1" is shown |
| `Packages.ChickenVersionStrings` | tests/test_repomd.py:103-104 | `vr` and `nvr` of the fixture package chicken |
| `Packages.ChickenIdentity` | tests/test_repomd.py:105-107 | with epoch "0", chicken's `evr`, `nevr` and `nevra` omit the epoch |
| `Packages.BrisketVersionStrings` | tests/test_repomd.py:126-127 | `vr` and `nvr` of the fixture package brisket |
| `Packages.BrisketEvr` | tests/test_repomd.py:128 | with epoch "1", brisket's `evr` is `1:5.1.1-1.fc27` |
| `Packages.BrisketIdentity` | tests/test_repomd.py:129-130 | brisket's `nevr` and `nevra` show the epoch |
| `Repositories.Len` | source/repomd.py:115-116 | definition of `len`: `int` of the declared `packages` attribute, `None` where Python raises (properties in `LenIsDeclaredCount`) |
| `Repositories.Iter` | source/repomd.py:118-120 | definition of iteration: one view per child of the catalog root, in document order |
| `Repositories.Matches` | source/repomd.py:123 | definition of the `common:package[common:name="name"]` predicate: the package tag and that exact name |
| `Repositories.FindAllIn` | source/repomd.py:129-133 | definition of the query over a list of children, scanned in document order (properties in `FindAllInAppend` and `FindAllMatchesPositions`) |
| `Repositories.FindAll` | source/repomd.py:129-133 | definition of `findall`: the package children with the queried name, scanned in document order (its properties are `FindAllInDocumentOrder` and `FindAllNamed`) |
| `Repositories.Find` | source/repomd.py:122-127 | `find` is `None` exactly when `findall` is empty; otherwise it is one of the `findall` results and matches the queried name |
| `Repositories.MatchPositions` | source/repomd.py:123 | the ascending list of exactly the positions of children that are `package` records with the queried name |
| `Repositories.FindAllInAppend` | source/repomd.py:129-133 | the query over a concatenation is the concatenation of the queries |
| `Repositories.FindAllMatchesPositions` | source/repomd.py:129-133 | the k-th result of the query is the child at the k-th matching position |
| `Repositories.FindAllInDocumentOrder` | source/repomd.py:118-133 | `findall` returns exactly the matching children in document order, and each is the view that iteration yields at that position |
| `Repositories.FindAllNamed` | source/repomd.py:129-133 | every `findall` result has the queried name and the package tag; `findall` is empty iff no child matches |
| `Repositories.FindIsLastMatch` | source/repomd.py:122-127 | `find` is `None` iff `findall` is empty iff no child matches; otherwise it is a matching child with no match after it |
| `Repositories.LenIsDeclaredCount` | source/repomd.py:115-116 | `len` depends only on the declared `packages` attribute; it is defined iff that attribute is a non-negative integer text |
| `Repositories.LenMayDifferFromIteration` | source/repomd.py:115-120 | a catalog declaring 5 packages has length 5 even with no children, and one declaring 0 has length 0 |
| `Loader.RepomdUrl` | source/repomd.py:42-43 | definition of the index URL: `geturl()` of the index location under a root |
| `Loader.PrimaryUrl` | source/repomd.py:88-89 | definition of the catalog URL: `geturl()` of the `href` location under the root that served the index |
| `Loader.LoadRepomd` | source/repomd.py:40-55 | the index is returned exactly when its fetch delivers it; the result is `NotRepoException` naming the index URL exactly when that fetch is a 404 |
| `Loader.TryMirror` | source/repomd.py:75-81 | a mirror serves exactly when its URL parses and the index fetch under the parsed root is received, and then it serves that index from that root; at most one request is made |
| `Loader.TryMirrors` | source/repomd.py:74-81 | a located index is what the fetch of `repodata/repomd.xml` under the serving mirror's root delivered; at most one request per mirror |
| `Loader.Locate` | source/repomd.py:65-84 | a located index is what the fetch of its root's `repodata/repomd.xml` delivered; a `NotRepoException` names the index URL under the caller's URL; no request is made exactly when the caller's URL does not parse |
| `Loader.PrimaryLocation` | source/repomd.py:87 | a primary location found belongs to an entry of type "primary" |
| `Loader.PrimaryHref` | source/repomd.py:87-88 | definition: the `href` of the primary location; a missing location or `href` is a malformed index (properties in `PrimaryLocationIsFirst` and `MissingPrimaryIsMalformed`) |
| `Loader.LoadCatalog` | source/repomd.py:86-95 | no catalog request is made exactly when the index has no usable primary `href`; the catalog is loaded exactly when the one request, to the primary URL, is received, and it is what that request delivered; an HTTP error keeps its status code and any other failure is a transport failure |
| `Loader.Load` | source/repomd.py:65-97 | a loaded `Repo` keeps the caller's URL and follows a successful location; an unparsable URL fails with no request; loading makes at most one request beyond locating |
| `Loader.PrimaryLocationIsFirst` | source/repomd.py:87 | the primary location is that of the first `data` entry of type "primary" that has a location; if there is none, the result is `None` |
| `Loader.TryMirrorsFirstSuccessWins` | source/repomd.py:74-81 | mirrors are tried in list order; the first that serves an index decides, and only the mirrors up to it are requested; if none serves, all were tried and the result is `None` |
| `Loader.DirectSuccessSkipsMirrors` | source/repomd.py:69-72 | when the direct index fetch succeeds, that is the only locating request and the mirror list is never fetched |
| `Loader.DirectFailurePropagates` | source/repomd.py:46-53 | a non-404 HTTP error or another failure on the direct index is returned unchanged after one request |
| `Loader.NotFoundFallsBackToMirrors` | source/repomd.py:71-84 | after a 404, the mirror list at the caller's URL is fetched next; if no mirror serves, the original `NotRepoException` for the direct index URL is raised; otherwise the first serving mirror is used, and the located root is that mirror's parsed URL |
| `Loader.LocateServes` | source/repomd.py:74-84 | the located index is what the fetch of its root's `repodata/repomd.xml` returned, and that fetch is the last locating request |
| `Loader.TryMirrorTraceEndsAt` | source/repomd.py:74-81 | the requests for a run of mirrors end with the index fetch of the last mirror when it parses |
| `Loader.LoadSucceeds` | source/repomd.py:86-97 | a successful `load` keeps the caller's URL, fetches the catalog at the primary href under the root that served the index, and makes that fetch its last request |
| `Loader.MissingPrimaryIsMalformed` | source/repomd.py:87-88 | an index without a usable primary location fails as malformed, and no catalog is requested |
| `Loader.CatalogNotFoundIsHttpFailure` | source/repomd.py:92-95 | a 404 on the primary catalog is an HTTP failure with no fallback |
| `Loader.CatalogFailurePropagates` | source/repomd.py:92-95 | any failed catalog fetch fails `load` after exactly the one catalog request: an HTTP error with its own status code, any other failure as a transport failure (never a malformed index) |

## Left out

- HTTP transport, gzip decompression and XML parsing. These are the oracles
  `fetchIndex`, `fetchCatalog` and `fetchMirrorlist` of `Loader.Env`. Any
  failure other than an `HTTPError` is the single outcome `TransportFault`.
- `urllib.parse.urlparse` and `geturl`. These are the oracles `parse`, which
  may fail like `ValueError`, and `render`. Their exact parsing and rendering
  rules, including scheme lower-casing, are not modelled.
- The mirror-list response as bytes: its UTF-8 decoding and `splitlines` are
  part of `fetchMirrorlist`, which returns the lines or `None`.
- `PurePosixPath` semantics: path joining is segment concatenation. An href
  with `/` in it is one segment. An absolute href, which would replace the
  path, and normalisation are not modelled.
- `Package.build_time`, which uses `datetime.fromtimestamp` and the local time
  zone, and the `__repr__`/`__str__` text.
- `Package` simple fields (`name`, `summary`, `license`, ...) are the record's
  fields. `None` stands for a missing node. A missing `location` or `version`
  element raises `AttributeError` in the source; the model does not represent
  this and reads the field as `None`.
- `Packages.Equal`: comparing a `Package` with a non-`Package` raises
  `AttributeError` in the source; the model compares packages only.
- The XPath query `common:package[common:name="..."]` becomes name equality.
  Quotes inside the name, and records with more than one `name` element, are
  not modelled.
- `PyInt.IntValue`: only ASCII whitespace and ASCII digits are modelled, not
  Unicode ones. The limit on the number of digits `int()` converts from text
  (`sys.get_int_max_str_digits()`, 4300 by default since Python 3.11 and in
  the 3.7.14, 3.8.14, 3.9.14 and 3.10.7 releases) is not modelled either: an
  epoch or `packages` text with more digits gives a value where Python raises
  `ValueError`, and so do `Packages.Evr` and `Repositories.Len`. The limit is
  a run-time setting of the interpreter, not part of the library.
- `Repositories.Len`: the `OverflowError` for counts above `sys.maxsize` is
  not modelled.
- Exception types beyond the outcomes of `Loader.LoadError`.

=== FILE: loader.dfy ===
/** `load`: locate the metadata index (directly, else through the mirror
    list), find the primary catalog it names, fetch that catalog relative to
    the root that served the index, and wrap it in a `Repo` that records the
    caller's URL. The network and the parsers are the oracles of `Env`; the
    result comes with the trace of every fetch attempted, in order. */
module Loader {
  import opened Results
  import opened Urls
  import Mirrorlist
  import opened Repositories

  /** The `location` child of a `data` entry, and its `href` attribute. */
  datatype Location = Location(href: Option<string>)

  /** One `data` entry of the index: its `type` attribute and its first
      `location` child, if any. */
  datatype DataEntry = DataEntry(dtype: string, location: Option<Location>)

  /** The parsed `repomd.xml`: its `data` entries in document order. */
  type Index = seq<DataEntry>

  /** What `urlopen` followed by decoding yields for one URL: the parsed
      document, an `HTTPError` with its status code, or any other failure
      (connection, gzip or XML). */
  datatype Response<+T> = Received(body: T) | HttpStatus(code: int) | TransportFault

  /** The collaborators of `load`: `urlparse` (`None` where it raises
      `ValueError`), `geturl`, and the three kinds of fetch. The mirror-list
      fetch yields the decoded body split into lines, `None` on any failure. */
  datatype Env = Env(
    parse: string -> Option<Url>,
    render: Url -> string,
    fetchIndex: string -> Response<Index>,
    fetchMirrorlist: string -> Option<seq<string>>,
    fetchCatalog: string -> Response<Catalog>)

  /** One network request, by the URL it was sent to. */
  datatype Attempt = IndexAt(url: string) | MirrorlistAt(url: string) | CatalogAt(url: string)

  /** What `load` raises: `ValueError` from `urlparse` on the caller's URL,
      `NotRepoException` naming the index URL, an `HTTPError` other than a
      404 on the index (or any on the catalog), any other transport, gzip or
      XML failure, and the crash on an index without a usable primary entry. */
  datatype LoadError =
    | InvalidUrl(url: string)
    | NotRepo(url: string)
    | HttpFailure(code: int)
    | TransportFailure
    | MalformedIndex

  /** The root that served an index, with that index. */
  datatype Located = Located(base: Url, index: Index)

  /** An outcome with the requests made to reach it. */
  datatype Run<+T> = Run(outcome: T, trace: seq<Attempt>)

  function RepomdUrl(env: Env, base: Url): string {
    env.render(RepomdLocation(base))
  }

  /** `_load_repomd`: fetch the index under `base`; a 404 becomes
      `NotRepoException`, every other failure is passed on unchanged. */
  function LoadRepomd(env: Env, base: Url): (r: Result<Index, LoadError>)
    ensures r.Ok? <==> env.fetchIndex(RepomdUrl(env, base)).Received?
    ensures r.Ok? ==> env.fetchIndex(RepomdUrl(env, base)) == Received(r.value)
    ensures r.Err? && r.error.NotRepo? <==> env.fetchIndex(RepomdUrl(env, base)) == HttpStatus(404)
    ensures r.Err? && r.error.NotRepo? ==> r.error.url == RepomdUrl(env, base)
  {
    var url := RepomdUrl(env, base);
    match env.fetchIndex(url)
    case Received(index) => Ok(index)
    case HttpStatus(code) => if code == 404 then Err(NotRepo(url)) else Err(HttpFailure(code))
    case TransportFault => Err(TransportFailure)
  }

  /** One pass of the mirror loop: `_parse_baseurl(mirror)` then
      `_load_repomd`, any exception meaning "try the next one". */
  function TryMirror(env: Env, mirror: string): (r: Run<Option<Located>>)
    ensures r.outcome.Some? ==>
              && env.parse(mirror) == Some(r.outcome.value.base)
              && env.fetchIndex(RepomdUrl(env, r.outcome.value.base)) == Received(r.outcome.value.index)
    ensures r.outcome.Some? <==>
              env.parse(mirror).Some? && env.fetchIndex(RepomdUrl(env, env.parse(mirror).value)).Received?
    ensures |r.trace| <= 1
  {
    match env.parse(mirror)
    case None => Run(None, [])
    case Some(base) =>
      var res := LoadRepomd(env, base);
      Run(if res.Ok? then Some(Located(base, res.value)) else None, [IndexAt(RepomdUrl(env, base))])
  }

  /** The mirror loop: candidates in order, stopping at the first that
      serves an index. */
  function TryMirrors(env: Env, mirrors: seq<string>): (r: Run<Option<Located>>)
    ensures r.outcome.Some? ==> env.fetchIndex(RepomdUrl(env, r.outcome.value.base)) == Received(r.outcome.value.index)
    ensures |r.trace| <= |mirrors|
  {
    if |mirrors| == 0 then Run(None, [])
    else
      var first := TryMirror(env, mirrors[0]);
      if first.outcome.Some? then first
      else
        var rest := TryMirrors(env, mirrors[1..]);
        Run(rest.outcome, first.trace + rest.trace)
  }

  /** The requests made by trying each of `mirrors` in turn. */
  function Attempted(env: Env, mirrors: seq<string>): seq<Attempt> {
    if |mirrors| == 0 then [] else TryMirror(env, mirrors[0]).trace + Attempted(env, mirrors[1..])
  }

  /** Mirror `k` is the first of `mirrors` that serves an index. */
  predicate FirstServing(env: Env, mirrors: seq<string>, k: int) {
    && 0 <= k < |mirrors|
    && TryMirror(env, mirrors[k]).outcome.Some?
    && forall j :: 0 <= j < k ==> TryMirror(env, mirrors[j]).outcome.None?
  }

  /** The first half of `load` (lines 66-84): the direct attempt, and on
      `NotRepoException` the mirror fallback. */
  function Locate(env: Env, baseurl: string): (r: Run<Result<Located, LoadError>>)
    ensures r.outcome.Ok? ==> env.fetchIndex(RepomdUrl(env, r.outcome.value.base)) == Received(r.outcome.value.index)
    ensures r.outcome.Err? && r.outcome.error.NotRepo? ==>
              env.parse(baseurl).Some? && r.outcome.error.url == RepomdUrl(env, env.parse(baseurl).value)
    ensures r.trace == [] <==> env.parse(baseurl).None?
  {
    match env.parse(baseurl)
    case None => Run(Err(InvalidUrl(baseurl)), [])
    case Some(base) =>
      var direct := LoadRepomd(env, base);
      var first := [IndexAt(RepomdUrl(env, base))];
      if direct.Ok? then Run(Ok(Located(base, direct.value)), first)
      else if !direct.error.NotRepo? then Run(Err(direct.error), first)
      else
        var mirrors := Mirrorlist.Candidates(env.parse, env.render, env.fetchMirrorlist(baseurl));
        var tried := TryMirrors(env, mirrors);
        var trace := first + [MirrorlistAt(baseurl)] + tried.trace;
        match tried.outcome
        case Some(located) => Run(Ok(located), trace)
        case None => Run(Err(direct.error), trace)
  }

  /** `repo:data[@type="primary"]/repo:location`: the first location child
      of an entry of type "primary". */
  function PrimaryLocation(index: Index): (r: Option<Location>)
    ensures r.Some? ==> exists i :: 0 <= i < |index| && index[i].dtype == "primary" && index[i].location == r
  {
    if |index| == 0 then None
    else if index[0].dtype == "primary" && index[0].location.Some? then index[0].location
    else PrimaryLocation(index[1..])
  }

  /** The primary catalog's `href`; a missing location (`None.get`) or a
      missing attribute (`path / None`) is a malformed index. */
  function PrimaryHref(index: Index): Result<string, LoadError> {
    match PrimaryLocation(index)
    case None => Err(MalformedIndex)
    case Some(Location(None)) => Err(MalformedIndex)
    case Some(Location(Some(href))) => Ok(href)
  }

  function PrimaryUrl(env: Env, located: Located, href: string): string {
    env.render(HrefLocation(located.base, href))
  }

  /** The second half of `load` (lines 87-95): fetch the primary catalog
      under the root that served the index. */
  function LoadCatalog(env: Env, located: Located): (r: Run<Result<Catalog, LoadError>>)
    ensures r.trace == [] <==> PrimaryHref(located.index).Err?
    ensures r.outcome.Ok? ==>
              && PrimaryHref(located.index).Ok?
              && r.trace == [CatalogAt(PrimaryUrl(env, located, PrimaryHref(located.index).value))]
              && env.fetchCatalog(PrimaryUrl(env, located, PrimaryHref(located.index).value)) == Received(r.outcome.value)
    ensures PrimaryHref(located.index).Ok? ==>
              var response := env.fetchCatalog(PrimaryUrl(env, located, PrimaryHref(located.index).value));
              && (response.Received? <==> r.outcome.Ok?)
              && (response.HttpStatus? ==> r.outcome == Err(HttpFailure(response.code)))
              && (response.TransportFault? ==> r.outcome == Err(TransportFailure))
  {
    match PrimaryHref(located.index)
    case Err(e) => Run(Err(e), [])
    case Ok(href) =>
      var url := PrimaryUrl(env, located, href);
      var trace := [CatalogAt(url)];
      match env.fetchCatalog(url)
      case Received(catalog) => Run(Ok(catalog), trace)
      case HttpStatus(code) => Run(Err(HttpFailure(code)), trace)
      case TransportFault => Run(Err(TransportFailure), trace)
  }

  /** `load(baseurl)`. */
  function Load(env: Env, baseurl: string): (r: Run<Result<Repo, LoadError>>)
    ensures r.outcome.Ok? ==> r.outcome.value.baseurl == baseurl && Locate(env, baseurl).outcome.Ok?
    ensures env.parse(baseurl).None? ==> r == Run(Err(InvalidUrl(baseurl)), [])
    ensures |Locate(env, baseurl).trace| <= |r.trace| <= |Locate(env, baseurl).trace| + 1
  {
    var located := Locate(env, baseurl);
    match located.outcome
    case Err(e) => Run(Err(e), located.trace)
    case Ok(loc) =>
      var catalog := LoadCatalog(env, loc);
      match catalog.outcome
      case Err(e) => Run(Err(e), located.trace + catalog.trace)
      case Ok(c) => Run(Ok(Repo(baseurl, c)), located.trace + catalog.trace)
  }

  // ---------------------------------------------------------------------
  // Properties
  // ---------------------------------------------------------------------

  /** The first entry of type "primary" that has a location decides; with
      none, the index is malformed. */
  lemma {:induction false} PrimaryLocationIsFirst(index: Index)
    ensures PrimaryLocation(index).None? <==>
              forall i :: 0 <= i < |index| ==> !(index[i].dtype == "primary" && index[i].location.Some?)
    ensures PrimaryLocation(index).Some? ==>
              exists i :: && 0 <= i < |index| && index[i].dtype == "primary"
                          && index[i].location == PrimaryLocation(index)
                          && forall j :: 0 <= j < i ==> !(index[j].dtype == "primary" && index[j].location.Some?)
    decreases |index|
  {
    if |index| > 0 && !(index[0].dtype == "primary" && index[0].location.Some?) {
      PrimaryLocationIsFirst(index[1..]);
      assert forall i :: 0 < i < |index| ==> index[i] == index[1..][i - 1];
      if PrimaryLocation(index).Some? {
        var i :| && 0 <= i < |index[1..]| && index[1..][i].dtype == "primary"
                 && index[1..][i].location == PrimaryLocation(index)
                 && forall j :: 0 <= j < i ==> !(index[1..][j].dtype == "primary" && index[1..][j].location.Some?);
        assert index[i + 1] == index[1..][i];
        assert forall j :: 0 < j < i + 1 ==> index[j] == index[1..][j - 1];
      }
    }
  }

  /** The mirror loop stops at the first mirror that serves an index: its
      outcome is that mirror's, and the requests made are exactly those for
      the mirrors up to and including it, in list order. When no mirror
      serves, every mirror was tried in order and the outcome is `None`. */
  lemma {:induction false} TryMirrorsFirstSuccessWins(env: Env, mirrors: seq<string>)
    ensures TryMirrors(env, mirrors).outcome.None? <==>
              forall j :: 0 <= j < |mirrors| ==> TryMirror(env, mirrors[j]).outcome.None?
    ensures TryMirrors(env, mirrors).outcome.None? ==> TryMirrors(env, mirrors).trace == Attempted(env, mirrors)
    ensures TryMirrors(env, mirrors).outcome.Some? ==> exists k :: FirstServing(env, mirrors, k)
    ensures forall k :: FirstServing(env, mirrors, k) ==>
              TryMirrors(env, mirrors) == Run(TryMirror(env, mirrors[k]).outcome, Attempted(env, mirrors[..k + 1]))
    decreases |mirrors|
  {
    if |mirrors| > 0 {
      var tail := mirrors[1..];
      assert forall j :: 0 < j < |mirrors| ==> mirrors[j] == tail[j - 1];
      assert Attempted(env, mirrors[..1]) == TryMirror(env, mirrors[0]).trace by {
        assert mirrors[..1][1..] == [];
      }
      if TryMirror(env, mirrors[0]).outcome.Some? {
        assert FirstServing(env, mirrors, 0);
      } else {
        TryMirrorsFirstSuccessWins(env, tail);
        if TryMirrors(env, mirrors).outcome.Some? {
          var k :| FirstServing(env, tail, k);
          assert FirstServing(env, mirrors, k + 1);
        }
        forall k | FirstServing(env, mirrors, k)
          ensures TryMirrors(env, mirrors) == Run(TryMirror(env, mirrors[k]).outcome, Attempted(env, mirrors[..k + 1]))
        {
          assert k > 0;
          assert FirstServing(env, tail, k - 1);
          assert mirrors[..k + 1][1..] == tail[..k];
        }
      }
    }
  }

  /** When the index is found directly, the mirror list is never fetched:
      the only request before the catalog is the direct index fetch. */
  lemma DirectSuccessSkipsMirrors(env: Env, baseurl: string, base: Url)
    requires env.parse(baseurl) == Some(base)
    requires env.fetchIndex(RepomdUrl(env, base)).Received?
    ensures Locate(env, baseurl) == Run(Ok(Located(base, env.fetchIndex(RepomdUrl(env, base)).body)), [IndexAt(RepomdUrl(env, base))])
    ensures forall a :: a in Load(env, baseurl).trace ==> !a.MirrorlistAt?
  {
  }

  /** An HTTP error other than 404, or any other failure, on the direct
      index fetch is passed on unchanged after that single request: no
      mirror list, no retry. */
  lemma DirectFailurePropagates(env: Env, baseurl: string, base: Url)
    requires env.parse(baseurl) == Some(base)
    requires match env.fetchIndex(RepomdUrl(env, base))
             case HttpStatus(code) => code != 404
             case TransportFault => true
             case Received(_) => false
    ensures Load(env, baseurl).trace == [IndexAt(RepomdUrl(env, base))]
    ensures Load(env, baseurl).outcome ==
              match env.fetchIndex(RepomdUrl(env, base))
              case HttpStatus(code) => Err(HttpFailure(code))
              case _ => Err(TransportFailure)
  {
  }

  /** After a 404 on the direct index, the mirror list at the caller's URL is
      fetched next and the filtered candidates are tried in order. If none
      serves an index, the original `NotRepoException` (naming the direct
      index URL) is raised; otherwise the first serving mirror is used and
      no later mirror is tried. */
  lemma NotFoundFallsBackToMirrors(env: Env, baseurl: string, base: Url)
    requires env.parse(baseurl) == Some(base)
    requires env.fetchIndex(RepomdUrl(env, base)) == HttpStatus(404)
    ensures var mirrors := Mirrorlist.Candidates(env.parse, env.render, env.fetchMirrorlist(baseurl));
            var prefix := [IndexAt(RepomdUrl(env, base)), MirrorlistAt(baseurl)];
            && ((forall j :: 0 <= j < |mirrors| ==> TryMirror(env, mirrors[j]).outcome.None?) ==>
                  Locate(env, baseurl) == Run(Err(NotRepo(RepomdUrl(env, base))), prefix + Attempted(env, mirrors))
                  && Load(env, baseurl).outcome == Err(NotRepo(RepomdUrl(env, base))))
            && (forall k :: FirstServing(env, mirrors, k) ==>
                  Locate(env, baseurl) == Run(Ok(TryMirror(env, mirrors[k]).outcome.value), prefix + Attempted(env, mirrors[..k + 1]))
                  && env.parse(mirrors[k]).Some?
                  && Locate(env, baseurl).outcome.value.base == env.parse(mirrors[k]).value)
  {
    var mirrors := Mirrorlist.Candidates(env.parse, env.render, env.fetchMirrorlist(baseurl));
    var url := RepomdUrl(env, base);
    var prefix := [IndexAt(url), MirrorlistAt(baseurl)];
    var tried := TryMirrors(env, mirrors);
    TryMirrorsFirstSuccessWins(env, mirrors);
    assert LoadRepomd(env, base) == Err(NotRepo(url));
    assert [IndexAt(url)] + [MirrorlistAt(baseurl)] == prefix;
    assert Locate(env, baseurl).trace == prefix + tried.trace;
    assert tried.outcome.None? ==> Locate(env, baseurl).outcome == Err(NotRepo(url));
  }

  /** A located index was actually served: it is what the fetch of its
      root's `repodata/repomd.xml` returned, and that fetch is the last
      request made while locating. */
  lemma {:induction false} LocateServes(env: Env, baseurl: string)
    ensures Locate(env, baseurl).outcome.Ok? ==>
              var loc := Locate(env, baseurl).outcome.value;
              && env.fetchIndex(RepomdUrl(env, loc.base)) == Received(loc.index)
              && |Locate(env, baseurl).trace| > 0
              && Locate(env, baseurl).trace[|Locate(env, baseurl).trace| - 1] == IndexAt(RepomdUrl(env, loc.base))
  {
    var run := Locate(env, baseurl);
    if run.outcome.Ok? && env.parse(baseurl).Some? {
      var base := env.parse(baseurl).value;
      if LoadRepomd(env, base).Err? {
        var mirrors := Mirrorlist.Candidates(env.parse, env.render, env.fetchMirrorlist(baseurl));
        TryMirrorsFirstSuccessWins(env, mirrors);
        var k :| FirstServing(env, mirrors, k);
        var m := env.parse(mirrors[k]).value;
        TryMirrorTraceEndsAt(env, mirrors[..k + 1], m);
        assert mirrors[..k + 1][k] == mirrors[k];
      }
    }
  }

  /** The requests of a run of mirrors whose last one parses end with that
      mirror's index fetch. */
  lemma {:induction false} TryMirrorTraceEndsAt(env: Env, mirrors: seq<string>, base: Url)
    requires |mirrors| > 0 && env.parse(mirrors[|mirrors| - 1]) == Some(base)
    ensures |Attempted(env, mirrors)| > 0
    ensures Attempted(env, mirrors)[|Attempted(env, mirrors)| - 1] == IndexAt(RepomdUrl(env, base))
    decreases |mirrors|
  {
    if |mirrors| > 1 {
      assert mirrors[1..][|mirrors[1..]| - 1] == mirrors[|mirrors| - 1];
      TryMirrorTraceEndsAt(env, mirrors[1..], base);
    }
  }

  /** A successful load records the caller's URL, not the mirror's, and its
      catalog is the one fetched at the primary `href` joined to the path of
      the root that served the index, with that root's scheme, host and
      query; that catalog fetch is the last request. */
  lemma LoadSucceeds(env: Env, baseurl: string)
    ensures Load(env, baseurl).outcome.Ok? ==>
              var repo := Load(env, baseurl).outcome.value;
              var loc := Locate(env, baseurl).outcome.value;
              && Locate(env, baseurl).outcome.Ok?
              && repo.baseurl == baseurl
              && env.fetchIndex(RepomdUrl(env, loc.base)) == Received(loc.index)
              && PrimaryHref(loc.index).Ok?
              && env.fetchCatalog(PrimaryUrl(env, loc, PrimaryHref(loc.index).value)) == Received(repo.metadata)
              && Load(env, baseurl).trace
                   == Locate(env, baseurl).trace + [CatalogAt(PrimaryUrl(env, loc, PrimaryHref(loc.index).value))]
  {
    LocateServes(env, baseurl);
  }

  /** An index without a usable primary entry is a failure of its own,
      raised after the index was found and before any catalog request. */
  lemma MissingPrimaryIsMalformed(env: Env, baseurl: string)
    requires Locate(env, baseurl).outcome.Ok?
    requires PrimaryHref(Locate(env, baseurl).outcome.value.index).Err?
    ensures Load(env, baseurl) == Run(Err(MalformedIndex), Locate(env, baseurl).trace)
  {
  }

  /** The catalog stage does not fall back: a 404 on the primary catalog is
      an `HTTPError`, not `NotRepoException`. */
  lemma CatalogNotFoundIsHttpFailure(env: Env, baseurl: string)
    requires Locate(env, baseurl).outcome.Ok?
    requires var loc := Locate(env, baseurl).outcome.value;
             PrimaryHref(loc.index).Ok?
             && env.fetchCatalog(PrimaryUrl(env, loc, PrimaryHref(loc.index).value)) == HttpStatus(404)
    ensures Load(env, baseurl).outcome == Err(HttpFailure(404))
  {
  }

  /** Nothing handles a failure of the catalog stage: an `HTTPError` keeps
      its status code and any other transport, gzip or XML failure stays a
      transport failure, distinct from a malformed index. */
  lemma CatalogFailurePropagates(env: Env, baseurl: string)
    requires Locate(env, baseurl).outcome.Ok?
    requires var loc := Locate(env, baseurl).outcome.value;
             PrimaryHref(loc.index).Ok?
             && !env.fetchCatalog(PrimaryUrl(env, loc, PrimaryHref(loc.index).value)).Received?
    ensures var loc := Locate(env, baseurl).outcome.value;
            var response := env.fetchCatalog(PrimaryUrl(env, loc, PrimaryHref(loc.index).value));
            Load(env, baseurl) == Run(
              if response.HttpStatus? then Err(HttpFailure(response.code)) else Err(TransportFailure),
              Locate(env, baseurl).trace + [CatalogAt(PrimaryUrl(env, loc, PrimaryHref(loc.index).value))])
  {
  }
}

=== FILE: mirrorlist.dfy ===
/** `_load_mirrorlist`: the candidate base URLs read from a mirror-list
    endpoint, one per line. A line is kept when its scheme is `http` or
    `https` and it names a host; the first line `urlparse` rejects ends the
    scan (the exception leaves the loop), keeping what was collected. */
module Mirrorlist {
  import opened Results
  import opened Urls

  /** The filter of the loop: scheme `http`/`https` and a non-empty netloc. */
  predicate IsMirrorUrl(u: Url) {
    (u.scheme == "http" || u.scheme == "https") && u.netloc != ""
  }

  /** Every line parses (no `ValueError` is raised while scanning them). */
  predicate AllParse(parse: string -> Option<Url>, lines: seq<string>) {
    forall i :: 0 <= i < |lines| ==> parse(lines[i]).Some?
  }

  /** The lines kept, rendered back with `geturl`, in input order. */
  function Collect(parse: string -> Option<Url>, render: Url -> string, lines: seq<string>): (r: seq<string>)
    ensures |r| <= |lines|
  {
    if |lines| == 0 then []
    else
      match parse(lines[0])
      case None => []
      case Some(u) => (if IsMirrorUrl(u) then [render(u)] else []) + Collect(parse, render, lines[1..])
  }

  /** The candidate list; `body` is the decoded response split into lines,
      or `None` when the fetch or the decoding failed. */
  function Candidates(parse: string -> Option<Url>, render: Url -> string, body: Option<seq<string>>): (r: seq<string>)
    ensures body.None? ==> r == []
    ensures body.Some? ==> |r| <= |body.value|
  {
    match body
    case None => []
    case Some(lines) => Collect(parse, render, lines)
  }

  /** Scanning `a + b` yields the candidates of `a` followed by those of `b`,
      and `b` is reached only when every line of `a` parsed: candidates keep
      input order, and a rejected line cuts the scan short. */
  lemma {:induction false} CollectAppend(parse: string -> Option<Url>, render: Url -> string, a: seq<string>, b: seq<string>)
    ensures Collect(parse, render, a + b)
         == Collect(parse, render, a) + (if AllParse(parse, a) then Collect(parse, render, b) else [])
    decreases |a|
  {
    if |a| == 0 {
      assert a + b == b;
    } else {
      assert (a + b)[0] == a[0];
      assert (a + b)[1..] == a[1..] + b;
      if parse(a[0]).Some? {
        CollectAppend(parse, render, a[1..], b);
        assert AllParse(parse, a) <==> AllParse(parse, a[1..]) by {
          assert forall i :: 0 < i < |a| ==> a[i] == a[1..][i - 1];
        }
      }
    }
  }

  /** Every candidate is the rendering of a line that parsed to an
      `http`/`https` URL with a host. */
  lemma {:induction false} CollectSound(parse: string -> Option<Url>, render: Url -> string, lines: seq<string>)
    ensures forall c :: c in Collect(parse, render, lines) ==>
              exists i :: 0 <= i < |lines| && parse(lines[i]).Some?
                && IsMirrorUrl(parse(lines[i]).value) && render(parse(lines[i]).value) == c
    decreases |lines|
  {
    if |lines| > 0 && parse(lines[0]).Some? {
      CollectSound(parse, render, lines[1..]);
      forall c | c in Collect(parse, render, lines)
        ensures exists i :: 0 <= i < |lines| && parse(lines[i]).Some?
                  && IsMirrorUrl(parse(lines[i]).value) && render(parse(lines[i]).value) == c
      {
        if c !in Collect(parse, render, lines[1..]) {
          assert parse(lines[0]).Some? && IsMirrorUrl(parse(lines[0]).value);
        } else {
          var i :| 0 <= i < |lines[1..]| && parse(lines[1..][i]).Some?
                     && IsMirrorUrl(parse(lines[1..][i]).value) && render(parse(lines[1..][i]).value) == c;
          assert lines[1..][i] == lines[i + 1];
        }
      }
    }
  }

  /** Every acceptable line before the first rejected one is a candidate. */
  lemma {:induction false} CollectComplete(parse: string -> Option<Url>, render: Url -> string, lines: seq<string>, i: nat)
    requires i < |lines| && AllParse(parse, lines[..i + 1])
    requires IsMirrorUrl(parse(lines[i]).value)
    ensures render(parse(lines[i]).value) in Collect(parse, render, lines)
    decreases i
  {
    assert lines[..i + 1][0] == lines[0];
    var u := parse(lines[0]).value;
    var tail := Collect(parse, render, lines[1..]);
    assert Collect(parse, render, lines) == (if IsMirrorUrl(u) then [render(u)] else []) + tail;
    if i > 0 {
      assert AllParse(parse, lines[1..][..i]) by {
        assert forall j :: 0 <= j < i ==> lines[1..][..i][j] == lines[..i + 1][j + 1];
      }
      assert lines[1..][i - 1] == lines[i];
      CollectComplete(parse, render, lines[1..], i - 1);
    }
  }

  /** A rejected line ends the scan: what follows it is never looked at. */
  lemma CollectStopsAtRejectedLine(parse: string -> Option<Url>, render: Url -> string, lines: seq<string>, i: nat)
    requires i < |lines| && parse(lines[i]).None?
    ensures Collect(parse, render, lines) == Collect(parse, render, lines[..i])
  {
    assert lines == lines[..i] + lines[i..];
    CollectAppend(parse, render, lines[..i], lines[i..]);
  }

  /** The loop of `_load_mirrorlist`, statement by statement: it returns
      exactly the candidate list. */
  method LoadMirrorlist(parse: string -> Option<Url>, render: Url -> string, body: Option<seq<string>>)
    returns (mirrors: seq<string>)
    ensures mirrors == Candidates(parse, render, body)
    ensures body.None? ==> mirrors == []
    ensures forall c :: c in mirrors ==>
              body.Some? && (exists i :: 0 <= i < |body.value| && parse(body.value[i]).Some?
                               && IsMirrorUrl(parse(body.value[i]).value) && render(parse(body.value[i]).value) == c)
  {
    mirrors := [];
    if body.None? {
      return;
    }
    var lines := body.value;
    var i := 0;
    while i < |lines|
      invariant 0 <= i <= |lines|
      invariant AllParse(parse, lines[..i])
      invariant mirrors == Collect(parse, render, lines[..i])
    {
      var parsed := parse(lines[i]);
      if parsed.None? {
        CollectStopsAtRejectedLine(parse, render, lines, i);
        break;
      }
      var u := parsed.value;
      CollectAppend(parse, render, lines[..i], [lines[i]]);
      assert [lines[i]][1..] == [];
      assert lines[..i + 1] == lines[..i] + [lines[i]];
      if IsMirrorUrl(u) {
        mirrors := mirrors + [render(u)];
      }
      i := i + 1;
    }
    if i == |lines| {
      assert lines[..i] == lines;
    }
    CollectSound(parse, render, lines);
  }
}

=== FILE: packages.dfy ===
/** `Package`: a read-only view over one record of the primary catalog. Its
    simple properties are the record's fields (a missing node is `None`);
    the identity strings are composed from name, epoch, version, release and
    arch; equality and hashing go through the 5-tuple of those fields. */
module Packages {
  import opened Results
  import PyInt

  /** The qualified tag a child of the catalog root needs to be a package:
      `package` in the namespace http://linux.duke.edu/metadata/common. */
  const PackageTag: string := "{http://linux.duke.edu/metadata/common}package"

  /** One child of the catalog root, with the text or attribute each
      accessor reads (`None` where the node or attribute is missing). The
      `version` element's attributes are `epoch`, `ver` and `rel`. */
  datatype Element = Element(
    tag: string,
    name: Option<string>,
    arch: Option<string>,
    summary: Option<string>,
    description: Option<string>,
    packager: Option<string>,
    url: Option<string>,
    license: Option<string>,
    vendor: Option<string>,
    sourcerpm: Option<string>,
    location: Option<string>,
    epoch: Option<string>,
    ver: Option<string>,
    rel: Option<string>)

  datatype Package = Package(element: Element)

  /** Why `evr` raises: `int(None)` or `int` of a non-integer text. */
  datatype EpochFault = EpochMissing | EpochNotInteger(text: string)

  /** The identity tuple `(name, epoch, version, release, arch)`. */
  datatype Identity = Identity(
    name: Option<string>,
    epoch: Option<string>,
    ver: Option<string>,
    rel: Option<string>,
    arch: Option<string>)

  /** How an f-string renders an optional field: `None` prints as "None". */
  function Format(o: Option<string>): string {
    match o
    case None => "None"
    case Some(s) => s
  }

  function Vr(p: Package): string {
    Format(p.element.ver) + "-" + Format(p.element.rel)
  }

  function Nvr(p: Package): string {
    Format(p.element.name) + "-" + Vr(p)
  }

  /** Whether `evr` shows the epoch: `int(epoch)` is nonzero. */
  function EpochShown(p: Package): Result<bool, EpochFault> {
    match p.element.epoch
    case None => Err(EpochMissing)
    case Some(e) =>
      match PyInt.IntValue(e)
      case None => Err(EpochNotInteger(e))
      case Some(v) => Ok(v != 0)
  }

  function Evr(p: Package): Result<string, EpochFault> {
    match EpochShown(p)
    case Err(f) => Err(f)
    case Ok(shown) => Ok(if shown then p.element.epoch.value + ":" + Vr(p) else Vr(p))
  }

  function Nevr(p: Package): Result<string, EpochFault> {
    match Evr(p)
    case Err(f) => Err(f)
    case Ok(evr) => Ok(Format(p.element.name) + "-" + evr)
  }

  function Nevra(p: Package): Result<string, EpochFault> {
    match Nevr(p)
    case Err(f) => Err(f)
    case Ok(nevr) => Ok(nevr + "." + Format(p.element.arch))
  }

  function Key(p: Package): Identity {
    Identity(p.element.name, p.element.epoch, p.element.ver, p.element.rel, p.element.arch)
  }

  /** `Package.__eq__`. */
  predicate Equal(p: Package, q: Package) {
    Key(p) == Key(q)
  }

  /** `Package.__hash__`, for whatever hash `h` Python uses on tuples. */
  function Hash(h: Identity -> int, p: Package): int {
    h(Key(p))
  }

  /** The epoch is left out of `evr` exactly when its text is an integer with
      no nonzero digit ("0", "00", "-0"); otherwise it is written before a
      colon. A missing or non-integer epoch makes `evr` fail. */
  lemma EvrOmitsZeroEpoch(p: Package)
    ensures Evr(p).Ok? <==> p.element.epoch.Some? && PyInt.IntValue(p.element.epoch.value).Some?
    ensures Evr(p).Ok? ==>
      (Evr(p).value == Vr(p) <==> forall c :: c in p.element.epoch.value ==> !PyInt.IsNonzeroDigit(c))
    ensures Evr(p).Ok? && Evr(p).value != Vr(p) ==> Evr(p).value == p.element.epoch.value + ":" + Vr(p)
  {
    if Evr(p).Ok? {
      PyInt.ZeroIffNoNonzeroDigit(p.element.epoch.value);
      var e := p.element.epoch.value;
      assert |e + ":" + Vr(p)| > |Vr(p)|;
    }
  }

  /** How the identity strings nest: `nevra` is `nevr` plus the arch, `nevr`
      is the name before `evr`, and with a zero epoch `nevra` is `nvr` plus
      the arch. */
  lemma IdentityStringsCompose(p: Package)
    ensures Nevr(p).Ok? <==> Evr(p).Ok?
    ensures Nevra(p).Ok? <==> Evr(p).Ok?
    ensures Evr(p).Ok? ==> Nevra(p).value == Format(p.element.name) + "-" + Evr(p).value + "." + Format(p.element.arch)
    ensures EpochShown(p) == Ok(false) ==> Nevra(p) == Ok(Nvr(p) + "." + Format(p.element.arch))
  {
  }

  /** None of the rendered name, version, release and arch contains a colon. */
  predicate ColonFree(p: Package) {
    && ':' !in Format(p.element.name)
    && ':' !in Format(p.element.ver)
    && ':' !in Format(p.element.rel)
    && ':' !in Format(p.element.arch)
  }

  /** When the other fields hold no colon, `nevra` contains one exactly when
      the epoch is shown. */
  lemma NevraColonIffEpochShown(p: Package)
    requires ColonFree(p)
    requires Nevra(p).Ok?
    ensures ':' in Nevra(p).value <==> EpochShown(p) == Ok(true)
  {
    var n, v, r, a := Format(p.element.name), Format(p.element.ver), Format(p.element.rel), Format(p.element.arch);
    if EpochShown(p) == Ok(true) {
      var e := p.element.epoch.value;
      assert Nevra(p).value == n + "-" + (e + ":" + (v + "-" + r)) + "." + a;
      assert Nevra(p).value[|n| + 1 + |e|] == ':';
    } else {
      var s := Nevra(p).value;
      assert s == n + "-" + (v + "-" + r) + "." + a;
      forall i | 0 <= i < |s|
        ensures s[i] != ':'
      {
        if i < |n| {
          assert s[i] == n[i];
        } else if i == |n| {
        } else if i < |n| + 1 + |v| {
          assert s[i] == v[i - |n| - 1];
        } else if i == |n| + 1 + |v| {
        } else if i < |n| + 2 + |v| + |r| {
          assert s[i] == r[i - |n| - 2 - |v|];
        } else if i == |n| + 2 + |v| + |r| {
        } else {
          assert s[i] == a[i - |n| - 3 - |v| - |r|];
        }
      }
    }
  }

  /** Equal packages render every identity string alike and hash alike. */
  lemma EqualPackagesAgree(h: Identity -> int, p: Package, q: Package)
    requires Equal(p, q)
    ensures Vr(p) == Vr(q) && Nvr(p) == Nvr(q)
    ensures Evr(p) == Evr(q) && Nevr(p) == Nevr(q) && Nevra(p) == Nevra(q)
    ensures Hash(h, p) == Hash(h, q)
  {
  }

  /** `__eq__` is an equivalence, as Python's dict and set need: it compares
      the 5-tuples, so it inherits tuple equality's laws. */
  lemma EqualIsEquivalence(p: Package, q: Package, o: Package)
    ensures Equal(p, p)
    ensures Equal(p, q) ==> Equal(q, p)
    ensures Equal(p, q) && Equal(q, o) ==> Equal(p, o)
  {
  }

  /** The identity tuple, not the `nevra` text, decides equality: with a
      zero epoch, moving a dash-separated piece from the end of the name to
      the front of the version gives an unequal package with the same
      `nevra`. */
  lemma NevraDoesNotDecideEquality(p: Package, q: Package, a: string, b: string, v: string)
    requires p.element.name == Some(a + "-" + b) && p.element.ver == Some(v)
    requires q.element.name == Some(a) && q.element.ver == Some(b + "-" + v)
    requires p.element.epoch == q.element.epoch && p.element.rel == q.element.rel && p.element.arch == q.element.arch
    requires EpochShown(p) == Ok(false)
    ensures !Equal(p, q)
    ensures Nvr(p) == Nvr(q) && Nevra(p) == Nevra(q)
  {
    assert |a + "-" + b| > |a|;
    var r, d := Format(p.element.rel), "-";
    assert Nvr(p) == (a + d + b) + d + (v + d + r);
    assert Nvr(q) == a + d + ((b + d + v) + d + r);
    assert (a + d + b) + d + (v + d + r) == a + d + b + d + v + d + r;
    assert a + d + ((b + d + v) + d + r) == a + d + b + d + v + d + r;
    assert EpochShown(q) == Ok(false);
    IdentityStringsCompose(p);
    IdentityStringsCompose(q);
  }

  /** Views whose records differ only outside the 5-tuple (here in the
      summary) are distinct values, yet they compare equal, hash alike and
      collapse to one entry of a set or of a dict's keys: two unequal
      packages and a copy of each make a set of two. */
  lemma CopiesCollapseInSets(h: Identity -> int, chicken: Package, brisket: Package, summary: string)
    requires !Equal(chicken, brisket)
    requires chicken.element.summary != Some(summary) && brisket.element.summary != Some(summary)
    ensures var chickenCopy := Package(chicken.element.(summary := Some(summary)));
            var brisketCopy := Package(brisket.element.(summary := Some(summary)));
            && chickenCopy != chicken && brisketCopy != brisket
            && Equal(chickenCopy, chicken) && Hash(h, chickenCopy) == Hash(h, chicken)
            && Equal(brisketCopy, brisket) && Hash(h, brisketCopy) == Hash(h, brisket)
            && |{Key(chicken), Key(brisket), Key(chickenCopy), Key(brisketCopy)}| == 2
            && Key(chickenCopy) in map[Key(chicken) := "chicken", Key(brisket) := "brisket"]
            && map[Key(chicken) := "chicken", Key(brisket) := "brisket"][Key(chickenCopy)] == "chicken"
  {
    var chickenCopy := Package(chicken.element.(summary := Some(summary)));
    var brisketCopy := Package(brisket.element.(summary := Some(summary)));
    assert chickenCopy.element.summary != chicken.element.summary;
    assert brisketCopy.element.summary != brisket.element.summary;
    assert {Key(chicken), Key(brisket), Key(chickenCopy), Key(brisketCopy)} == {Key(chicken), Key(brisket)};
  }

  /** Epoch "0" is not shown and epoch "1" is. */
  lemma FixtureEpochs(p: Package)
    ensures p.element.epoch == Some("0") ==> EpochShown(p) == Ok(false)
    ensures p.element.epoch == Some("1") ==> EpochShown(p) == Ok(true)
  {
    PyInt.SingleDigit('0');
    PyInt.SingleDigit('1');
    assert "0" == ['0'] && "1" == ['1'];
  }

  /** The version strings of the fixture package `chicken`. */
  lemma ChickenVersionStrings(p: Package)
    requires p.element.name == Some("chicken") && p.element.ver == Some("2.2.10") && p.element.rel == Some("1.fc27")
    ensures Vr(p) == "2.2.10-1.fc27"
    ensures Nvr(p) == "chicken-2.2.10-1.fc27"
  {
    assert "2.2.10" + "-" + "1.fc27" == "2.2.10-1.fc27";
    assert "chicken" + "-" + "2.2.10-1.fc27" == "chicken-2.2.10-1.fc27";
  }

  /** With epoch "0", `chicken`'s `evr`, `nevr` and `nevra` leave the epoch out. */
  lemma ChickenIdentity(p: Package)
    requires p.element.name == Some("chicken") && p.element.arch == Some("noarch")
    requires p.element.epoch == Some("0") && p.element.ver == Some("2.2.10") && p.element.rel == Some("1.fc27")
    ensures Evr(p) == Ok("2.2.10-1.fc27")
    ensures Nevr(p) == Ok("chicken-2.2.10-1.fc27")
    ensures Nevra(p) == Ok("chicken-2.2.10-1.fc27.noarch")
  {
    FixtureEpochs(p);
    ChickenVersionStrings(p);
    assert "chicken-2.2.10-1.fc27" + "." + "noarch" == "chicken-2.2.10-1.fc27.noarch";
  }

  /** The version strings of the fixture package `brisket`. */
  lemma BrisketVersionStrings(p: Package)
    requires p.element.name == Some("brisket") && p.element.ver == Some("5.1.1") && p.element.rel == Some("1.fc27")
    ensures Vr(p) == "5.1.1-1.fc27"
    ensures Nvr(p) == "brisket-5.1.1-1.fc27"
  {
    assert "5.1.1" + "-" + "1.fc27" == "5.1.1-1.fc27";
    assert "brisket" + "-" + "5.1.1-1.fc27" == "brisket-5.1.1-1.fc27";
  }

  /** With epoch "1", `brisket`'s `evr` starts with "1:". */
  lemma BrisketEvr(p: Package)
    requires p.element.name == Some("brisket")
    requires p.element.epoch == Some("1") && p.element.ver == Some("5.1.1") && p.element.rel == Some("1.fc27")
    ensures Evr(p) == Ok("1:5.1.1-1.fc27")
  {
    FixtureEpochs(p);
    BrisketVersionStrings(p);
    assert "1" + ":" + "5.1.1-1.fc27" == "1:5.1.1-1.fc27";
  }

  /** With epoch "1", `brisket`'s `nevr` and `nevra` show the epoch. */
  lemma BrisketIdentity(p: Package)
    requires p.element.name == Some("brisket") && p.element.arch == Some("noarch")
    requires p.element.epoch == Some("1") && p.element.ver == Some("5.1.1") && p.element.rel == Some("1.fc27")
    ensures Nevr(p) == Ok("brisket-1:5.1.1-1.fc27")
    ensures Nevra(p) == Ok("brisket-1:5.1.1-1.fc27.noarch")
  {
    BrisketEvr(p);
    IdentityStringsCompose(p);
    assert "brisket" + "-" + "1:5.1.1-1.fc27" == "brisket-1:5.1.1-1.fc27";
    assert "brisket-1:5.1.1-1.fc27" + "." + "noarch" == "brisket-1:5.1.1-1.fc27.noarch";
  }
}

=== FILE: pyint.dfy ===
/** Python's `int(text)` on a string, as used by `Package.evr` (epoch test)
    and `Repo.__len__` (declared package count): surrounding whitespace is
    stripped, an optional sign is accepted, and the digits may be grouped by
    single underscores. */
module PyInt {
  import opened Results

  /** The ASCII whitespace `int()` strips: space, \t, \n, \v, \f, \r. */
  predicate IsSpace(c: char) {
    c == ' ' || c == '\t' || c == '\n' || c == '\r' || c as int == 0x0B || c as int == 0x0C
  }

  predicate IsDigit(c: char) {
    '0' <= c <= '9'
  }

  predicate IsNonzeroDigit(c: char) {
    '1' <= c <= '9'
  }

  /** Drops leading whitespace. */
  function StripLeft(s: string): string
  {
    if |s| > 0 && IsSpace(s[0]) then StripLeft(s[1..]) else s
  }

  /** Drops trailing whitespace. */
  function StripRight(s: string): string
  {
    if |s| > 0 && IsSpace(s[|s| - 1]) then StripRight(s[..|s| - 1]) else s
  }

  /** `text.strip()` with the whitespace above. */
  function Strip(s: string): string
  {
    StripRight(StripLeft(s))
  }

  /** `StripLeft` removes a prefix made only of whitespace, and all of it. */
  lemma {:induction false} StripLeftRemovesSpace(s: string)
    ensures var r := StripLeft(s);
            && |r| <= |s| && r == s[|s| - |r|..]
            && (forall i :: 0 <= i < |s| - |r| ==> IsSpace(s[i]))
            && (|r| > 0 ==> !IsSpace(r[0]))
  {
    if |s| > 0 && IsSpace(s[0]) {
      StripLeftRemovesSpace(s[1..]);
    }
  }

  /** `StripRight` removes a suffix made only of whitespace, and all of it. */
  lemma {:induction false} StripRightRemovesSpace(s: string)
    ensures var r := StripRight(s);
            && |r| <= |s| && r == s[..|r|]
            && (forall i :: |r| <= i < |s| ==> IsSpace(s[i]))
            && (|r| > 0 ==> !IsSpace(r[|r| - 1]))
  {
    if |s| > 0 && IsSpace(s[|s| - 1]) {
      StripRightRemovesSpace(s[..|s| - 1]);
    }
  }

  /** Stripping keeps every non-whitespace character and adds none. */
  lemma StripKeepsText(s: string)
    ensures forall c :: c in Strip(s) ==> c in s
    ensures forall i :: 0 <= i < |s| && !IsSpace(s[i]) ==> s[i] in Strip(s)
  {
    var l := StripLeft(s);
    StripLeftRemovesSpace(s);
    StripRightRemovesSpace(l);
    SliceKeeps(s, l, StripRight(l), |s| - |l|);
  }

  /** Keeping a middle slice `r` of `s` whose cut-off ends are whitespace
      keeps every non-whitespace character and adds none. */
  lemma SliceKeeps(s: string, l: string, r: string, k: nat)
    requires k <= |s| && l == s[k..] && |r| <= |l| && r == l[..|r|]
    requires forall i :: 0 <= i < k ==> IsSpace(s[i])
    requires forall i :: |r| <= i < |l| ==> IsSpace(l[i])
    ensures forall c :: c in r ==> c in s
    ensures forall i :: 0 <= i < |s| && !IsSpace(s[i]) ==> s[i] in r
  {
    forall c | c in r
      ensures c in s
    {
      var j :| 0 <= j < |r| && r[j] == c;
      assert s[k + j] == c;
    }
    forall i | 0 <= i < |s| && !IsSpace(s[i])
      ensures s[i] in r
    {
      assert l[i - k] == s[i];
      assert r[i - k] == s[i];
    }
  }

  /** A digit group, `digit (["_"] digit)*`: digits, with single underscores
      only between digits. */
  predicate DigitRun(b: string)
  {
    && |b| > 0
    && IsDigit(b[0])
    && (|b| == 1 || DigitRun(b[1..]) || (b[1] == '_' && DigitRun(b[2..])))
  }

  /** The decimal value of the digits of `b`; underscores are skipped. */
  function DigitsValue(b: string): nat
  {
    if |b| == 0 then 0
    else if IsDigit(b[|b| - 1]) then 10 * DigitsValue(b[..|b| - 1]) + (b[|b| - 1] as int - '0' as int)
    else DigitsValue(b[..|b| - 1])
  }

  /** `int(s)`: `None` where Python raises `ValueError`. */
  function IntValue(s: string): Option<int>
  {
    var t := Strip(s);
    if |t| > 0 && (t[0] == '+' || t[0] == '-') then
      if DigitRun(t[1..]) then
        Some(if t[0] == '-' then -(DigitsValue(t[1..]) as int) else DigitsValue(t[1..]))
      else None
    else if DigitRun(t) then Some(DigitsValue(t))
    else None
  }

  lemma {:induction false} DigitsValueZero(b: string)
    ensures DigitsValue(b) == 0 <==> forall i :: 0 <= i < |b| ==> !IsNonzeroDigit(b[i])
    decreases |b|
  {
    if |b| > 0 {
      var init := b[..|b| - 1];
      DigitsValueZero(init);
      assert forall i :: 0 <= i < |init| ==> init[i] == b[i];
    }
  }

  /** A well-formed integer text denotes zero exactly when none of its
      characters is a nonzero digit ("0", "00", "-0", " 0_0 " all do). */
  lemma {:induction false} ZeroIffNoNonzeroDigit(s: string)
    requires IntValue(s).Some?
    ensures IntValue(s).value == 0 <==> forall c :: c in s ==> !IsNonzeroDigit(c)
  {
    var t := Strip(s);
    var b := if |t| > 0 && (t[0] == '+' || t[0] == '-') then t[1..] else t;
    StripKeepsText(s);
    DigitsValueZero(b);
    assert IntValue(s).value == 0 <==> DigitsValue(b) == 0;
    assert forall c :: c in s && IsNonzeroDigit(c) ==> c in b by {
      forall c | c in s && IsNonzeroDigit(c)
        ensures c in b
      {
        var i :| 0 <= i < |s| && s[i] == c;
        assert c in t;
        var j :| 0 <= j < |t| && t[j] == c;
        if b != t {
          assert j > 0;
          assert b[j - 1] == c;
        }
      }
    }
    assert forall c :: c in b ==> c in s by {
      forall c | c in b
        ensures c in s
      {
        var j :| 0 <= j < |b| && b[j] == c;
        if b != t {
          assert t[j + 1] == c;
        }
        assert c in t;
      }
    }
  }

  /** A single decimal digit denotes its own value. */
  lemma SingleDigit(c: char)
    requires IsDigit(c)
    ensures IntValue([c]) == Some(c as int - '0' as int)
  {
    var t := [c];
    assert !IsSpace(c);
    assert StripLeft(t) == t;
    assert StripRight(t) == t;
    assert Strip(t) == t;
    assert t[..0] == [];
    assert DigitsValue(t) == c as int - '0' as int;
    assert DigitRun(t);
  }
}

=== FILE: repositories.dfy ===
/** `Repo`: the caller's base URL and the parsed primary catalog, with the
    query surface `len`, iteration, `find` and `findall`. */
module Repositories {
  import opened Results
  import opened Packages
  import PyInt

  /** The catalog root: its `packages` attribute (the declared count, as
      text, `None` when absent) and its children in document order. */
  datatype Catalog = Catalog(packages: Option<string>, children: seq<Element>)

  datatype Repo = Repo(baseurl: string, metadata: Catalog)

  /** `len(repo)`: `int` of the declared count; `None` where Python raises
      (attribute missing, not an integer, or negative). */
  function Len(repo: Repo): Option<nat> {
    match repo.metadata.packages
    case None => None
    case Some(text) =>
      match PyInt.IntValue(text)
      case None => None
      case Some(v) => if v >= 0 then Some(v) else None
  }

  /** `iter(repo)`: one view per child of the root, in document order. */
  function Iter(repo: Repo): seq<Package> {
    seq(|repo.metadata.children|, i requires 0 <= i < |repo.metadata.children| => Package(repo.metadata.children[i]))
  }

  /** The `common:package[common:name="name"]` match. */
  predicate Matches(e: Element, name: string) {
    e.tag == PackageTag && e.name == Some(name)
  }

  function FindAllIn(children: seq<Element>, name: string): seq<Package> {
    if |children| == 0 then []
    else (if Matches(children[0], name) then [Package(children[0])] else []) + FindAllIn(children[1..], name)
  }

  /** `repo.findall(name)`. */
  function FindAll(repo: Repo, name: string): seq<Package> {
    FindAllIn(repo.metadata.children, name)
  }

  /** `repo.find(name)`: the last result of the same query, or `None`. */
  function Find(repo: Repo, name: string): (r: Option<Package>)
    ensures r.Some? ==> Matches(r.value.element, name) && r.value in FindAll(repo, name)
    ensures r.None? <==> FindAll(repo, name) == []
  {
    FindAllNamed(repo, name);
    var results := FindAll(repo, name);
    if |results| > 0 then Some(results[|results| - 1]) else None
  }

  /** The positions of the children matching `name`, ascending: exactly the
      matching positions, each once. */
  function MatchPositions(children: seq<Element>, name: string): (idx: seq<nat>)
    ensures forall k :: 0 <= k < |idx| ==> idx[k] < |children| && Matches(children[idx[k]], name)
    ensures forall k, l :: 0 <= k < l < |idx| ==> idx[k] < idx[l]
    ensures forall i :: 0 <= i < |children| && Matches(children[i], name) ==> i in idx
    decreases |children|
  {
    if |children| == 0 then []
    else
      var init := children[..|children| - 1];
      var rest := MatchPositions(init, name);
      assert forall i :: 0 <= i < |init| ==> init[i] == children[i];
      if Matches(children[|children| - 1], name) then rest + [|children| - 1] else rest
  }

  lemma {:induction false} FindAllInAppend(a: seq<Element>, b: seq<Element>, name: string)
    ensures FindAllIn(a + b, name) == FindAllIn(a, name) + FindAllIn(b, name)
    decreases |a|
  {
    if |a| == 0 {
      assert a + b == b;
    } else {
      assert (a + b)[0] == a[0];
      assert (a + b)[1..] == a[1..] + b;
      FindAllInAppend(a[1..], b, name);
    }
  }

  /** `findall` yields exactly the matching children, in document order:
      its k-th result is the child at the k-th matching position, and it is
      the view iteration yields there. */
  lemma {:induction false} FindAllInDocumentOrder(repo: Repo, name: string)
    ensures var idx := MatchPositions(repo.metadata.children, name);
            && |FindAll(repo, name)| == |idx|
            && forall k :: 0 <= k < |idx| ==>
                 FindAll(repo, name)[k] == Package(repo.metadata.children[idx[k]]) == Iter(repo)[idx[k]]
  {
    FindAllMatchesPositions(repo.metadata.children, name);
  }

  lemma {:induction false} FindAllMatchesPositions(children: seq<Element>, name: string)
    ensures var idx := MatchPositions(children, name);
            && |FindAllIn(children, name)| == |idx|
            && forall k :: 0 <= k < |idx| ==> FindAllIn(children, name)[k] == Package(children[idx[k]])
    decreases |children|
  {
    if |children| > 0 {
      var init := children[..|children| - 1];
      var last := children[|children| - 1];
      FindAllMatchesPositions(init, name);
      assert children == init + [last];
      FindAllInAppend(init, [last], name);
      assert [last][1..] == [];
      assert forall i :: 0 <= i < |init| ==> init[i] == children[i];
    }
  }

  /** Every result of `findall` carries the queried name. */
  lemma FindAllNamed(repo: Repo, name: string)
    ensures forall p :: p in FindAll(repo, name) ==> p.element.name == Some(name) && p.element.tag == PackageTag
    ensures FindAll(repo, name) == [] <==> forall i :: 0 <= i < |repo.metadata.children| ==> !Matches(repo.metadata.children[i], name)
  {
    var idx := MatchPositions(repo.metadata.children, name);
    FindAllInDocumentOrder(repo, name);
    forall p | p in FindAll(repo, name)
      ensures p.element.name == Some(name) && p.element.tag == PackageTag
    {
      var k :| 0 <= k < |FindAll(repo, name)| && FindAll(repo, name)[k] == p;
    }
    if FindAll(repo, name) != [] {
      assert Matches(repo.metadata.children[idx[0]], name);
    }
  }

  /** `find` is `None` exactly when nothing matches; otherwise it is the
      view of a matching child after which no child matches, i.e. the last
      match in document order and the last element of `findall`. */
  lemma FindIsLastMatch(repo: Repo, name: string)
    ensures Find(repo, name).None? <==> FindAll(repo, name) == []
    ensures Find(repo, name).None? <==>
              forall i :: 0 <= i < |repo.metadata.children| ==> !Matches(repo.metadata.children[i], name)
    ensures Find(repo, name).Some? ==>
              exists i :: && 0 <= i < |repo.metadata.children|
                          && Matches(repo.metadata.children[i], name)
                          && Find(repo, name).value == Package(repo.metadata.children[i])
                          && forall j :: i < j < |repo.metadata.children| ==> !Matches(repo.metadata.children[j], name)
  {
    var ch := repo.metadata.children;
    var idx := MatchPositions(ch, name);
    FindAllInDocumentOrder(repo, name);
    FindAllNamed(repo, name);
    if |idx| > 0 {
      var i := idx[|idx| - 1];
      assert forall j :: i < j < |ch| ==> !Matches(ch[j], name);
      assert Find(repo, name).value == Package(ch[i]);
    }
  }

  /** `len` reads the declared count and never recounts the children: the
      same root attribute gives the same length whatever the children are. */
  lemma LenIsDeclaredCount(repo: Repo, other: Repo)
    requires repo.metadata.packages == other.metadata.packages
    ensures Len(repo) == Len(other)
    ensures Len(repo).Some? <==>
              repo.metadata.packages.Some? && PyInt.IntValue(repo.metadata.packages.value).Some?
              && PyInt.IntValue(repo.metadata.packages.value).value >= 0
  {
  }

  /** A catalog declaring 5 packages has length 5 even with no children, and
      one declaring 0 has length 0. */
  lemma LenMayDifferFromIteration(b: string)
    ensures Len(Repo(b, Catalog(Some("5"), []))) == Some(5) && |Iter(Repo(b, Catalog(Some("5"), [])))| == 0
    ensures Len(Repo(b, Catalog(Some("0"), []))) == Some(0)
  {
    PyInt.SingleDigit('5');
    PyInt.SingleDigit('0');
    assert "5" == ['5'];
    assert "0" == ['0'];
    assert PyInt.IntValue("5") == Some(5);
    assert PyInt.IntValue("0") == Some(0);
  }
}

=== FILE: results.dfy ===
/** Failure-carrying wrappers shared by the repository model: `Option` for
    values Python represents as `None`-or-something, `Result` for operations
    that either return or raise. */
module Results {

  datatype Option<+T> = None | Some(value: T)

  datatype Result<+T, +E> = Ok(value: T) | Err(error: E)
}

=== FILE: urls.dfy ===
/** URLs as the loader sees them after `urllib.parse.urlparse`: a record whose
    path is kept as `PurePosixPath` segments. Sibling resources of a
    repository are addressed by replacing the path and nothing else. */
module Urls {

  /** A POSIX path as its sequence of segments; joining is concatenation. */
  type Path = seq<string>

  datatype Url = Url(
    scheme: string,
    netloc: string,
    path: Path,
    params: string,
    query: string,
    fragment: string)

  /** The segments `_load_repomd` appends to a repository path. */
  const RepodataSegments: Path := ["repodata", "repomd.xml"]

  /** `base._replace(path=...)`. */
  function ReplacePath(base: Url, p: Path): Url
  {
    base.(path := p)
  }

  /** Where the metadata index of the repository rooted at `base` lives. */
  function RepomdLocation(base: Url): Url
  {
    ReplacePath(base, base.path + RepodataSegments)
  }

  /** Where a document the index refers to by `href` lives. */
  function HrefLocation(base: Url, href: string): Url
  {
    ReplacePath(base, base.path + [href])
  }

  /** Two URLs that differ at most in their path. */
  predicate SameOrigin(a: Url, b: Url) {
    && a.scheme == b.scheme
    && a.netloc == b.netloc
    && a.params == b.params
    && a.query == b.query
    && a.fragment == b.fragment
  }

  /** Replacing the path keeps scheme, host, parameters, query and fragment;
      a second replacement overrides the first; and two URLs agree after a
      replacement exactly when they shared their origin. */
  lemma ReplacePathLaws(u: Url, v: Url, p: Path, q: Path)
    ensures SameOrigin(ReplacePath(u, p), u) && ReplacePath(u, p).path == p
    ensures ReplacePath(ReplacePath(u, p), q) == ReplacePath(u, q)
    ensures ReplacePath(u, u.path) == u
    ensures ReplacePath(u, p) == ReplacePath(v, p) <==> SameOrigin(u, v)
  {
  }

  /** The index and every document it refers to are fetched from the same
      origin, under the same repository path. */
  lemma SiblingsShareRoot(base: Url, href: string)
    ensures SameOrigin(RepomdLocation(base), HrefLocation(base, href))
    ensures RepomdLocation(base).path[..|base.path|] == HrefLocation(base, href).path[..|base.path|] == base.path
  {
  }
}
